=== FILE: README.md ===
# diffusion-gallery: prompt validation, log de-duplication and URL registration

This project models the verifiable core of the diffusion gallery, a Django
application that queues image-generation requests:

- **Prompt parameters** (`gallery/models.py`): a generation request carries a
  name, a text, a width and height, a step count, a seed, a sampler and a batch
  size. Each field declares its constraints: Min/Max/Step validators, a
  `max_length`, or a fixed list of choices. No character field allows blanks,
  so an empty name, text, seed or sampler is reported as blank. A full clean
  runs every validator of every field and collects the failures per field.
  `Models.DeclaredValidate` models this error dictionary for the fields as
  declared. `Models.Validate` is the same except that the seed may be left
  blank, as its help text and its TODO intend (see "## Findings"). `Models.WellFormed` states the same
  constraints in closed form, and `Models.ValidIff` proves the two agree. The
  `size` property renders `"<width>x<height>"`. It is proved to round-trip
  through a parser, so two prompts have the same size exactly when their
  dimensions agree. A new `Task` starts in the `waiting` state.
- **Duplicate log filter** (`gallery/util/DuplicateFilter.py`): a logging
  filter with one field, `last`. It drops a record whose message template
  equals `last`; otherwise it lets the record through and remembers its
  message. `Logging.Kept` gives, as a function, the records a filter lets
  through over a stream. `Logging.FilterStream` runs the class over a stream
  and is proved to produce exactly `Kept`. The lemmas prove that the output
  has no two adjacent equal messages, that it is a subsequence of the input,
  that filtering it again changes nothing, and that only the single previous
  message matters.
- **URL router** (`gallery/util/Router.py`): calling a router with a route,
  kwargs and a name returns a decorator (`Routing.Binder`). Applying the
  decorator to a view appends one URL pattern and returns the view unchanged.
  A class-based view is stored as its `as_view()` result. `collect` returns
  the patterns in registration order. `Routing.Urlconf` models how a views
  module uses the router: a fresh router, a series of decorations, then
  `collect`.

Modules: `Wrappers` (the `Option` type), `Decimal` (Python's `str(int)` and
its inverse), `Models`, `Logging` and `Routing`.

Claiming, leases, timeouts and status encoding live in the external
`modelqueue` library. The repository's own worker is an endless poll around
that library (`gallery/management/commands/diffuse.py`) plus an empty
generator (`gallery/DiffusionWorker.py`), and there is no model cache. The
only queue fact the code states is a new task's default status, and that is
what is modelled.

The help text of width and height says "divisible by 8". The validators
enforce a step of 64, and the model follows the validators.
`Models.DimensionStepIs64` shows a width of 520 being rejected.

## Model

| member | source | states |
|---|---|---|
| `Models.RuleErrors` | gallery/models.py:52-60 | Every declared validator runs. Each error names a declared rule the value breaks, every broken rule has an error, and the list is empty iff the value passes them all. The order of the errors is fixed per field by the three lemmas below. |
| `Models.DimensionRules` | gallery/models.py:52-60 | A width or height reports exactly these errors, in this order: Min(64) if v < 64, Max(4096) if v > 4096, Step(64) if v is not a multiple of 64. So it passes iff 64 ≤ v ≤ 4096 and v is a multiple of 64. |
| `Models.DimensionStepIs64` | gallery/models.py:52-60 | The step is 64, not the 8 of the help text: 520 is divisible by 8 but fails, and its only error is the step rule. 576 passes. |
| `Models.StepsRulesIff` | gallery/models.py:76-79 | The step count reports exactly Min(1) if steps < 1, then Max(1000) if steps > 1000. So it passes iff 1 ≤ steps ≤ 1000. |
| `Models.BatchSizeRulesIff` | gallery/models.py:104-106 | The batch size reports exactly Min(1) if batch_size < 1, then Max(100) if batch_size > 100. So it passes iff 1 ≤ batch_size ≤ 100. |
| `Models.Label` | gallery/models.py:90-100 | A code has a label iff some declared choice has that code, and the (code, label) pair is one of the choices. |
| `Models.SamplerChoiceIff` | gallery/models.py:90-100 | The sampler choice check accepts exactly euler, heun, lms, plms, ddim, dpm2, euler_a and dpm2_a. |
| `Models.SamplerCodesFit` | gallery/models.py:90-100 | Every declared sampler code fits the field's 16-character limit, so a valid choice never also fails the length check. |
| `Models.DeclaredFieldErrors` | gallery/models.py:38-106 | The errors one field reports as declared. An empty name, text, seed or sampler reports exactly `[Blank]`, and a `Blank` error is never reported beside another error. A non-empty name, text or seed reports exactly `[TooLong(100)]`, `[TooLong(1000)]` or `[TooLong(16)]` when it is over its limit and nothing otherwise. A non-empty sampler reports exactly `[InvalidChoice]` when it is not one of the eight codes and nothing otherwise. |
| `Models.FieldErrors` | gallery/models.py:81-87 | The errors one field reports when the seed may be blank. The seed reports a length error iff it is longer than 16 characters, and nothing otherwise. Every other field reports exactly what it reports as declared. |
| `Models.FieldErrorsIff` | gallery/models.py:38-106 | Each field reports no error iff its own constraint holds. Name must be 1–100 characters and text 1–1000. An empty name or text reports exactly `[Blank]`. The seed may be empty and at most 16 characters. The integer and choice constraints above apply too, and a choice is never empty. |
| `Models.DeclaredValidate` | gallery/models.py:38-106 | The error dictionary of a full clean as declared. It holds exactly the fields that report errors, each with its non-empty list of errors. |
| `Models.Validate` | gallery/models.py:38-106 | The same dictionary when the seed may be blank: exactly the fields that report errors, each with its non-empty list of errors. |
| `Models.IsValid` | gallery/models.py:38-106 | No contract of its own: a prompt is valid when `Validate` reports nothing. `ValidIff` and `ValidateEmpty` give it its meaning. |
| `Models.ValidateEmpty` | gallery/models.py:38-106 | The error dictionary is empty iff no field reports an error. |
| `Models.ValidIff` | gallery/models.py:38-106 | A prompt cleans without error iff every field constraint holds, with the seed allowed to be blank (both directions). A blank name or text fails. |
| `Models.DeclaredValidIff` | gallery/models.py:38-106 | As declared, a prompt cleans without error iff every field constraint holds and the seed is not empty (both directions). |
| `Models.AgreeAwayFromSeed` | gallery/models.py:38-106 | The declared clean and the blank-seed clean report the same errors on every field except the seed. |
| `Models.BlankSeedErrors` | gallery/models.py:81-87 | With an empty seed, the declared clean reports `[Blank]` on the seed and the blank-seed clean reports nothing there. |
| `Models.DeclaredSeedRejectsBlank` | gallery/models.py:81-87 | As declared, the seed field does not allow blanks: a prompt with an empty seed gets exactly a `Blank` error on the seed. The variant where the seed may be blank reports nothing there and agrees on every other field. |
| `Models.DeclaredAgreesOnNonBlankSeed` | gallery/models.py:38-106 | When the seed is not empty, the declared clean and the blank-seed clean report the same errors. |
| `Models.BlankSeedAccepted` | gallery/models.py:81-87 | With the seed allowed to be blank, a prompt is valid iff it is valid with an empty seed and its own seed is at most 16 characters. |
| `Models.DefaultsValid` | gallery/models.py:52-106 | The defaults are width = height = 512, steps = 50, sampler = euler and batch_size = 1. A prompt with the defaults is valid iff its name and text are non-empty and all three supplied texts fit their length limits. |
| `Models.WithDefaults` | gallery/models.py:52-106 | No contract of its own. It builds a prompt with the declared defaults (512, 512, 50, euler, 1) and the given name, text and seed. `DefaultsValid` and `DefaultsErrorFields` state what those defaults guarantee. |
| `Models.DefaultsErrorFields` | gallery/models.py:52-106 | The defaults raise no integer or choice error: a prompt with them can report errors only on name, text or seed. |
| `Decimal.Natural` | gallery/models.py:145-147 | A natural number renders as a non-empty string of digits with no leading zero. |
| `Decimal.Render` | gallery/models.py:145-147 | An integer renders as a non-empty string without the letter 'x'. |
| `Decimal.RenderRoundTrip` | gallery/models.py:145-147 | Parsing the rendering of any integer gives it back. |
| `Models.Size` | gallery/models.py:145-147 | The `size` property. Splitting its result at the first 'x' and parsing both halves gives back (width, height). |
| `Models.SizeRoundTrip` | gallery/models.py:145-147 | The decimal width, "x", then the decimal height parses back to (width, height) for every pair of integers. |
| `Models.SizeInjective` | gallery/models.py:145-147 | Two prompts have the same `size` iff their widths and heights are equal. |
| `Models.NewTask` | gallery/models.py:181-193 | A newly created task refers to its prompt and starts in the `waiting` state. |
| `Logging.DuplicateFilter.constructor` | gallery/util/DuplicateFilter.py:9 | A fresh filter remembers the empty message. |
| `Logging.DuplicateFilter.Filter` | gallery/util/DuplicateFilter.py:11-17 | A record is let through iff its message differs from `last`. A dropped record leaves `last` unchanged. A kept one sets `last` to its message. |
| `Logging.KeptSnoc` | gallery/util/DuplicateFilter.py:9-17 | Only the single previous message is remembered: appending a record appends it to the output iff its message differs from the message just before it. |
| `Logging.FilterStream` | gallery/util/DuplicateFilter.py:11-17 | Running the filter over a stream lets through exactly `Kept(last, records)` and leaves the last message of the stream in memory. |
| `Logging.KeptHasNoAdjacentRepeats` | gallery/util/DuplicateFilter.py:12-15 | No two adjacent records in the output have equal messages, and the first differs from the remembered message. |
| `Logging.KeptIsSubsequence` | gallery/util/DuplicateFilter.py:11-17 | The filter only drops records: its output is a subsequence of the input and no longer than it. |
| `Logging.KeptUnchanged` | gallery/util/DuplicateFilter.py:12-17 | A stream without adjacent repeats whose first message differs from the remembered one passes unchanged. |
| `Logging.Idempotent` | gallery/util/DuplicateFilter.py:9-17 | Filtering the output of a fresh filter with another fresh filter yields the same sequence. |
| `Logging.FreshDropsEmptyMessage` | gallery/util/DuplicateFilter.py:9-13 | A fresh filter drops a first record whose message is empty. |
| `Logging.NonAdjacentRepeatsPass` | gallery/util/DuplicateFilter.py:9-17 | Repeats that are not adjacent all pass: A, B, A is let through whole. |
| `Logging.ArgumentsIgnored` | gallery/util/DuplicateFilter.py:12-13 | Only the message template is compared: a record repeating the previous template is dropped even when its arguments differ. |
| `Routing.Resolve` | gallery/util/Router.py:15-18 | The stored handler is `as_view()` iff the view has `as_view`, and it is built from that same view. |
| `Routing.Router.constructor` | gallery/util/Router.py:9-10 | A new router has no links. |
| `Routing.Router.Call` | gallery/util/Router.py:12-26 | Calling the router only captures the router, route, kwargs and name in a decorator. It modifies nothing, so no pattern is added. |
| `Routing.Binder.Bind` | gallery/util/Router.py:14-24 | Applying the decorator appends exactly one pattern at the end, with the captured route, kwargs and name and the resolved view. Earlier patterns are unchanged. It returns the view it was given. |
| `Routing.Router.Collect` | gallery/util/Router.py:28-29 | `collect` returns the registered patterns as they are, in registration order. |
| `Routing.Urlconf` | gallery/views.py:6-11 | A fresh router decorated with a list of views collects one pattern per decoration, in declaration order, each carrying that decoration's route, kwargs, name and view. Every decorated view comes back unchanged. |

## Left out

- The worker loop (`gallery/management/commands/diffuse.py`): an endless poll with a sleep around the external `modelqueue.run`. Claiming, leases and timeouts live in that library, which is not part of this model.
- The generator (`gallery/DiffusionWorker.py`): its constructor and `generate` are empty, so there is nothing to model. Seed resolution is an unimplemented TODO in `gallery/models.py`.
- Task status encoding: `modelqueue.StatusField`, `modelqueue.Status` and the admin actions and filters are foreign library calls. A task's state is modelled only by its name, and only the default `waiting` is stated.
- `scale` and `eta`: floating-point ranges with fractional steps.
- The ORM and storage layer: the `model` foreign key, `DiffusionModel`, `Image`, the timestamps, `__str__` and the constant class attributes (`n_iter`, `unet_bs`, `device`, `full_precision`, `turbo`).
- Models.RuleErrors: the step rule is checked exactly on integers. Django's step validator compares floats with `math.remainder`, so above 2^53 it can miss a step error, and beyond float range a full clean raises `OverflowError` instead of reporting errors. Neither edge is modelled. Validity of values near the declared bounds is unaffected.
- Decimal.Render: it renders integers of any size. CPython 3.11 and later refuse `str()` of integers over 4300 digits with a `ValueError`, and that limit is not modelled.
- Models.Validate: the database-dependent integer range that Django adds to positive integer fields is not modelled. Every declared Min/Max pair lies inside it.
- Models.FieldErrorsIff: Django enforces the text field's `max_length` only in generated forms, not in a model clean. The model checks it together with the other fields.
- Logging.DuplicateFilter.Filter: a record's message is modelled as a string. In the logging library it may be any object compared with `==`. Passing the record on to handlers and formatting it are not modelled. Calls are assumed to come one at a time: the logging library calls a handler's filters outside the handler's lock, so two threads can race on `last`, and that interleaving is not modelled.
- Routing.Resolve: `as_view()` is modelled as a value determined by the view. The real call builds a new function object each time.
- Routing.Binder.Bind: Django's `path()` is treated as a constructor that always succeeds. The real call raises `TypeError` for a view that is not callable or kwargs that are not a dict, and `ImproperlyConfigured` for a route with an unknown converter, and then appends nothing. The model's types rule out the first two and routes are not parsed, so none of these errors is modelled.
- Routing.Router.Collect: the model returns the patterns as a value. The source returns the router's own list, so a caller that mutates the result also changes the router; that aliasing is not modelled.
- The bodies of the views in `gallery/views.py`, and `gallery/urls.py`, `gallery/api.py` and `gallery/admin.py`, are not modelled. The way `gallery/views.py` uses the router is modelled by `Routing.Urlconf`: a fresh router, the decorations, then `collect` as at `gallery/urls.py:11`. `gallery/urls.py:8` calls a `route.include` that `Router` does not define, and `gallery/api.py:3` imports `.utils` rather than `.util`. Neither `include` nor the API module is part of this model.

## Findings

| source | as written | input that shows it | evidently intended | confidence | as-written member | corrected member |
|---|---|---|---|---|---|---|
| gallery/models.py:81-87 | The seed is a character field without `blank=True`, so a full clean reports an empty seed as blank. | seed = "" with every other field valid, as the view test posts at gallery/tests/test_views.py:54 | An empty seed is accepted and means "random seed", as the help text ("Leave blank for random seed") and the TODO at line 82 say. | medium, not executed | `Models.DeclaredSeedRejectsBlank` | `Models.BlankSeedAccepted` |

=== FILE: decimal.dfy ===
/**
 * Decimal rendering of integers as Python's `str(int)` produces it
 * (a leading '-' for negative values, no leading zeros), and the parser
 * that undoes it.
 */
module Decimal {
  import opened Wrappers

  predicate IsDigit(c: char) {
    '0' <= c <= '9'
  }

  predicate AllDigits(s: string) {
    forall i | 0 <= i < |s| :: IsDigit(s[i])
  }

  function DigitChar(d: nat): (c: char)
    requires d < 10
    ensures IsDigit(c)
  {
    "0123456789"[d]
  }

  function DigitValue(c: char): (d: nat)
    requires IsDigit(c)
    ensures d < 10
  {
    (c as int - '0' as int) as nat
  }

  /** The digits of `n`, most significant first. */
  function Natural(n: nat): (s: string)
    ensures |s| >= 1 && AllDigits(s)
    ensures |s| > 1 ==> s[0] != '0'
  {
    if n < 10 then [DigitChar(n)] else Natural(n / 10) + [DigitChar(n % 10)]
  }

  /** `str(i)` for an integer `i`. */
  function Render(i: int): (s: string)
    ensures s != [] && 'x' !in s
  {
    if i < 0 then "-" + Natural(-i) else Natural(i)
  }

  function ParseNatural(s: string): nat
    requires AllDigits(s)
  {
    if s == [] then 0 else ParseNatural(s[..|s| - 1]) * 10 + DigitValue(s[|s| - 1])
  }

  /** `int(s)` restricted to an optional '-' followed by at least one digit. */
  function Parse(s: string): Option<int> {
    if s != [] && s[0] == '-' then
      if |s| > 1 && AllDigits(s[1..]) then Some(-(ParseNatural(s[1..]) as int)) else None
    else if s != [] && AllDigits(s) then Some(ParseNatural(s))
    else None
  }

  lemma {:induction false} ParseNaturalOfNatural(n: nat)
    ensures ParseNatural(Natural(n)) == n
  {
    if n >= 10 {
      var s := Natural(n);
      assert s[..|s| - 1] == Natural(n / 10);
      assert DigitValue(s[|s| - 1]) == n % 10;
      ParseNaturalOfNatural(n / 10);
    } else {
      assert DigitValue(DigitChar(n)) == n;
    }
  }

  lemma ParseSigned(digits: string)
    requires digits != [] && AllDigits(digits)
    ensures Parse("-" + digits) == Some(-(ParseNatural(digits) as int))
  {
    assert ("-" + digits)[1..] == digits;
  }

  lemma ParseNegative(i: int)
    requires i < 0
    ensures Parse(Render(i)) == Some(i)
  {
    var n: nat := -i;
    var digits := Natural(n);
    assert Render(i) == "-" + digits;
    ParseNaturalOfNatural(n);
    ParseSigned(digits);
    assert Parse("-" + digits) == Some(i);
  }

  lemma ParseNonNegative(i: int)
    requires i >= 0
    ensures Parse(Render(i)) == Some(i)
  {
    var digits := Natural(i);
    assert Render(i) == digits;
    assert IsDigit(digits[0]);
    ParseNaturalOfNatural(i);
  }

  /** Rendering then parsing gives back the integer. */
  lemma RenderRoundTrip(i: int)
    ensures Parse(Render(i)) == Some(i)
  {
    if i < 0 {
      ParseNegative(i);
    } else {
      ParseNonNegative(i);
    }
  }
}

=== FILE: duplicate_filter.dfy ===
/**
 * The logging filter that drops a record whose message template equals the
 * one of the last record it let through.
 */
module Logging {

  /** A log record: its message template and the arguments formatted into it. */
  datatype LogRecord = LogRecord(msg: string, args: seq<string>)

  class DuplicateFilter {
    /** The message of the last record let through; empty in a fresh filter. */
    var last: string

    constructor ()
      ensures last == ""
    {
      last := "";
    }

    /** Lets `record` through unless its message equals the remembered one. */
    method Filter(record: LogRecord) returns (keep: bool)
      modifies this
      ensures keep <==> record.msg != old(last)
      ensures last == (if keep then record.msg else old(last))
    {
      if record.msg == last {
        return false;
      }
      last := record.msg;
      return true;
    }
  }

  /** The message a filter remembers after seeing `records`, starting from `last`. */
  function LastAfter(last: string, records: seq<LogRecord>): string {
    if records == [] then last else records[|records| - 1].msg
  }

  /** The records a filter starting from `last` lets through, in order. */
  function Kept(last: string, records: seq<LogRecord>): seq<LogRecord>
    decreases |records|
  {
    if records == [] then []
    else (if records[0].msg == last then [] else [records[0]]) + Kept(records[0].msg, records[1..])
  }

  predicate NoAdjacentRepeats(records: seq<LogRecord>) {
    forall i | 0 < i < |records| :: records[i - 1].msg != records[i].msg
  }

  /** `sub` is `s` with some entries dropped and the rest in their order. */
  predicate IsSubsequence(sub: seq<LogRecord>, s: seq<LogRecord>)
    decreases |s|
  {
    if s == [] then sub == []
    else IsSubsequence(sub, s[1..]) || (sub != [] && sub[0] == s[0] && IsSubsequence(sub[1..], s[1..]))
  }

  /**
   * Only the single previous message decides: a record is let through exactly
   * when its message differs from the one just before it (or from `last`
   * for the first record).
   */
  lemma {:induction false} KeptSnoc(last: string, records: seq<LogRecord>, r: LogRecord)
    ensures Kept(last, records + [r]) ==
      Kept(last, records) + (if r.msg == LastAfter(last, records) then [] else [r])
    decreases |records|
  {
    if records != [] {
      assert (records + [r])[1..] == records[1..] + [r];
      KeptSnoc(records[0].msg, records[1..], r);
    }
  }

  /** Running the filter over a stream lets through `Kept` and leaves the last message seen in memory. */
  method FilterStream(f: DuplicateFilter, records: seq<LogRecord>) returns (kept: seq<LogRecord>)
    modifies f
    ensures kept == Kept(old(f.last), records)
    ensures f.last == LastAfter(old(f.last), records)
  {
    kept := [];
    for i := 0 to |records|
      invariant kept == Kept(old(f.last), records[..i])
      invariant f.last == LastAfter(old(f.last), records[..i])
    {
      KeptSnoc(old(f.last), records[..i], records[i]);
      assert records[..i + 1] == records[..i] + [records[i]];
      var keep := f.Filter(records[i]);
      if keep {
        kept := kept + [records[i]];
      }
    }
    assert records[..|records|] == records;
  }

  /** No two adjacent records let through share a message, and the first differs from `last`. */
  lemma {:induction false} KeptHasNoAdjacentRepeats(last: string, records: seq<LogRecord>)
    ensures NoAdjacentRepeats(Kept(last, records))
    ensures Kept(last, records) != [] ==> Kept(last, records)[0].msg != last
    decreases |records|
  {
    if records != [] {
      var head := if records[0].msg == last then [] else [records[0]];
      var tail := Kept(records[0].msg, records[1..]);
      KeptHasNoAdjacentRepeats(records[0].msg, records[1..]);
      var k := Kept(last, records);
      assert k == head + tail;
      forall i | 0 < i < |k| ensures k[i - 1].msg != k[i].msg {
        if head != [] && i == 1 {
          assert k[0] == records[0] && k[1] == tail[0];
        } else if head != [] {
          assert k[i - 1] == tail[i - 2] && k[i] == tail[i - 1];
        } else {
          assert k[i - 1] == tail[i - 1] && k[i] == tail[i];
        }
      }
    }
  }

  /** The filter only drops records: what it lets through is a subsequence of the input. */
  lemma {:induction false} KeptIsSubsequence(last: string, records: seq<LogRecord>)
    ensures IsSubsequence(Kept(last, records), records)
    ensures |Kept(last, records)| <= |records|
    decreases |records|
  {
    if records != [] {
      KeptIsSubsequence(records[0].msg, records[1..]);
      var k := Kept(last, records);
      if records[0].msg != last {
        assert k[0] == records[0] && k[1..] == Kept(records[0].msg, records[1..]);
      } else {
        assert k == Kept(records[0].msg, records[1..]);
      }
    }
  }

  /** A stream already free of adjacent repeats, not starting with the remembered message, passes unchanged. */
  lemma {:induction false} KeptUnchanged(last: string, records: seq<LogRecord>)
    requires NoAdjacentRepeats(records)
    requires records != [] ==> records[0].msg != last
    ensures Kept(last, records) == records
    decreases |records|
  {
    if records != [] {
      KeptUnchanged(records[0].msg, records[1..]);
      assert [records[0]] + records[1..] == records;
    }
  }

  /** Filtering what a fresh filter let through, with another fresh filter, changes nothing. */
  lemma Idempotent(records: seq<LogRecord>)
    ensures Kept("", Kept("", records)) == Kept("", records)
  {
    KeptHasNoAdjacentRepeats("", records);
    KeptUnchanged("", Kept("", records));
  }

  /** A fresh filter drops a first record whose message is empty. */
  lemma FreshDropsEmptyMessage(records: seq<LogRecord>)
    requires records != [] && records[0].msg == ""
    ensures Kept("", records) == Kept("", records[1..])
  {
  }

  /** Repeats that are not adjacent all pass: A, B, A is let through whole. */
  lemma NonAdjacentRepeatsPass(a: LogRecord, b: LogRecord)
    requires a.msg != "" && a.msg != b.msg
    ensures Kept("", [a, b, a]) == [a, b, a]
  {
    assert [a, b, a][1..] == [b, a];
    assert [b, a][1..] == [a];
    assert [a][1..] == [];
    assert Kept(b.msg, [a]) == [a];
    assert Kept(a.msg, [b, a]) == [b, a];
  }

  /** Only the template is compared: a record repeating the previous template is dropped whatever its arguments. */
  lemma ArgumentsIgnored(last: string, r: LogRecord, s: LogRecord)
    requires r.msg == s.msg && r.msg != last
    ensures Kept(last, [r, s]) == [r]
  {
    assert [r, s][1..] == [s];
    assert [s][1..] == [];
    assert Kept(r.msg, [s]) == [];
  }
}

=== FILE: models.dfy ===
/**
 * The generation request (`Prompt`) and the queue entry (`Task`) of the
 * gallery: the declared field constraints and defaults, how a prompt is
 * validated field by field, and the `size` property.
 */
module Models {
  import opened Wrappers
  import Decimal

  /** The integer validators a field declares: Min, Max and Step. */
  datatype IntRule = AtLeast(bound: int) | AtMost(bound: int) | MultipleOf(step: int)

  predicate Passes(v: int, rule: IntRule) {
    match rule
    case AtLeast(b) => v >= b
    case AtMost(b) => v <= b
    case MultipleOf(s) => s != 0 && v % s == 0
  }

  const SizeRules: seq<IntRule> := [AtLeast(64), AtMost(4096), MultipleOf(64)]
  const StepsRules: seq<IntRule> := [AtLeast(1), AtMost(1000)]
  const BatchSizeRules: seq<IntRule> := [AtLeast(1), AtMost(100)]

  const NameMaxLength: nat := 100
  const TextMaxLength: nat := 1000
  const SeedMaxLength: nat := 16
  const SamplerMaxLength: nat := 16

  /** (code, label) pairs of the sampler field, in declaration order. */
  const SamplerChoices: seq<(string, string)> := [
    ("euler", "Euler"),
    ("heun", "Heun"),
    ("lms", "LMS"),
    ("plms", "PLMS"),
    ("ddim", "DDIM"),
    ("dpm2", "DPM2"),
    ("euler_a", "Euler Ancestral"),
    ("dpm2_a", "DPM2 Ancestral")
  ]

  const DefaultSize: int := 512
  const DefaultSteps: int := 50
  const DefaultSampler: string := "euler"
  const DefaultBatchSize: int := 1

  /** The validated parameters of a prompt (the model reference, timestamps and float fields are not part of this model). */
  datatype Prompt = Prompt(
    name: string,
    text: string,
    width: int,
    height: int,
    steps: int,
    seed: string,
    sampler: string,
    batchSize: int)

  datatype Field = Name | Text | Width | Height | Steps | Seed | Sampler | BatchSize

  const AllFields: set<Field> := {Name, Text, Width, Height, Steps, Seed, Sampler, BatchSize}

  datatype FieldError = Blank | TooLong(limit: nat) | Broken(rule: IntRule) | InvalidChoice


  /** The label of a choice code, if the code is one of `choices`. */
  function Label(choices: seq<(string, string)>, code: string): (r: Option<string>)
    ensures r.Some? <==> exists i | 0 <= i < |choices| :: choices[i].0 == code
    ensures r.Some? ==> (code, r.value) in choices
  {
    if choices == [] then None
    else if choices[0].0 == code then Some(choices[0].1)
    else Label(choices[1..], code)
  }

  predicate IsSampler(code: string) {
    Label(SamplerChoices, code).Some?
  }

  function LengthErrors(s: string, limit: nat): seq<FieldError> {
    if |s| <= limit then [] else [TooLong(limit)]
  }

  /** One error per rule of `rules` that `v` breaks, in declaration order (every validator runs). */
  function RuleErrors(v: int, rules: seq<IntRule>): (r: seq<FieldError>)
    ensures r == [] <==> forall i | 0 <= i < |rules| :: Passes(v, rules[i])
    ensures forall e | e in r :: e.Broken? && e.rule in rules && !Passes(v, e.rule)
    ensures forall x | x in rules && !Passes(v, x) :: Broken(x) in r
  {
    if rules == [] then []
    else (if Passes(v, rules[0]) then [] else [Broken(rules[0])]) + RuleErrors(v, rules[1..])
  }

  /**
   * The errors of a character field. An empty value of a field that does not
   * allow blanks reports only `Blank`; an empty value of one that does skips
   * validation; any other value is checked against the length limit.
   */
  function TextErrors(s: string, limit: nat, blankAllowed: bool): seq<FieldError> {
    if s == [] then (if blankAllowed then [] else [Blank]) else LengthErrors(s, limit)
  }

  /**
   * The errors one field of `p` reports as the fields are declared: no field
   * allows blanks, and a choice field is checked against its choices before
   * its length.
   */
  function DeclaredFieldErrors(p: Prompt, f: Field): (r: seq<FieldError>)
    ensures Blank in r ==> r == [Blank]
    ensures ((f == Name && p.name == "") || (f == Text && p.text == "") || (f == Seed && p.seed == "")
             || (f == Sampler && p.sampler == "")) ==> r == [Blank]
    ensures f == Name && p.name != "" ==> r == if |p.name| <= 100 then [] else [TooLong(100)]
    ensures f == Text && p.text != "" ==> r == if |p.text| <= 1000 then [] else [TooLong(1000)]
    ensures f == Seed && p.seed != "" ==> r == if |p.seed| <= 16 then [] else [TooLong(16)]
    ensures f == Sampler && p.sampler != "" ==> r == if ValidSampler(p.sampler) then [] else [InvalidChoice]
  {
    match f
    case Name => TextErrors(p.name, NameMaxLength, false)
    case Text => TextErrors(p.text, TextMaxLength, false)
    case Width => RuleErrors(p.width, SizeRules)
    case Height => RuleErrors(p.height, SizeRules)
    case Steps => RuleErrors(p.steps, StepsRules)
    case Seed => TextErrors(p.seed, SeedMaxLength, false)
    case Sampler =>
      SamplerChoiceIff(p.sampler);
      SamplerCodesFit();
      if p.sampler == [] then [Blank]
      else if IsSampler(p.sampler) then LengthErrors(p.sampler, SamplerMaxLength)
      else [InvalidChoice]
    case BatchSize => RuleErrors(p.batchSize, BatchSizeRules)
  }

  /** The errors one field reports once the seed may be left blank for a random seed. */
  function FieldErrors(p: Prompt, f: Field): (r: seq<FieldError>)
    ensures f == Seed ==> r == if |p.seed| <= SeedMaxLength then [] else [TooLong(SeedMaxLength)]
    ensures f != Seed ==> r == DeclaredFieldErrors(p, f)
  {
    if f == Seed then TextErrors(p.seed, SeedMaxLength, true) else DeclaredFieldErrors(p, f)
  }

  /** The error dictionary of a full clean of the fields as declared. */
  function DeclaredValidate(p: Prompt): (errors: map<Field, seq<FieldError>>)
    ensures forall f | f in errors :: errors[f] != [] && errors[f] == DeclaredFieldErrors(p, f)
    ensures forall f | f in AllFields && DeclaredFieldErrors(p, f) != [] :: f in errors
  {
    map f | f in AllFields && DeclaredFieldErrors(p, f) != [] :: DeclaredFieldErrors(p, f)
  }

  /** The error dictionary of a full clean: every field that reports errors, with its errors. */
  function Validate(p: Prompt): (errors: map<Field, seq<FieldError>>)
    ensures forall f | f in errors :: errors[f] != [] && errors[f] == FieldErrors(p, f)
    ensures forall f | f in AllFields && FieldErrors(p, f) != [] :: f in errors
  {
    map f | f in AllFields && FieldErrors(p, f) != [] :: FieldErrors(p, f)
  }

  predicate IsValid(p: Prompt) {
    Validate(p) == map[]
  }

  /** The constraints stated in closed form. */
  predicate ValidDimension(v: int) {
    64 <= v <= 4096 && v % 64 == 0
  }

  predicate ValidSteps(v: int) {
    1 <= v <= 1000
  }

  predicate ValidBatchSize(v: int) {
    1 <= v <= 100
  }

  predicate ValidSampler(code: string) {
    code in {"euler", "heun", "lms", "plms", "ddim", "dpm2", "euler_a", "dpm2_a"}
  }

  predicate WellFormed(p: Prompt) {
    0 < |p.name| <= 100 && 0 < |p.text| <= 1000 && |p.seed| <= 16
    && ValidDimension(p.width) && ValidDimension(p.height)
    && ValidSteps(p.steps) && ValidSampler(p.sampler) && ValidBatchSize(p.batchSize)
  }

  /** A width or height reports Min, then Max, then Step, each exactly when it is broken. */
  lemma DimensionRules(v: int)
    ensures RuleErrors(v, SizeRules) ==
      (if v < 64 then [Broken(AtLeast(64))] else [])
      + (if v > 4096 then [Broken(AtMost(4096))] else [])
      + (if v % 64 != 0 then [Broken(MultipleOf(64))] else [])
    ensures RuleErrors(v, SizeRules) == [] <==> ValidDimension(v)
  {
    var tail := [AtMost(4096), MultipleOf(64)];
    assert SizeRules[1..] == tail && tail[1..] == [MultipleOf(64)] && [MultipleOf(64)][1..] == [];
    assert RuleErrors(v, [MultipleOf(64)]) == if v % 64 != 0 then [Broken(MultipleOf(64))] else [];
    assert RuleErrors(v, tail) ==
      (if v > 4096 then [Broken(AtMost(4096))] else []) + RuleErrors(v, [MultipleOf(64)]);
  }

  /** The step count reports Min, then Max, each exactly when it is broken. */
  lemma StepsRulesIff(v: int)
    ensures RuleErrors(v, StepsRules) ==
      (if v < 1 then [Broken(AtLeast(1))] else []) + (if v > 1000 then [Broken(AtMost(1000))] else [])
    ensures RuleErrors(v, StepsRules) == [] <==> ValidSteps(v)
  {
    assert StepsRules[1..] == [AtMost(1000)];
    assert StepsRules[1..][1..] == [];
  }

  /** The batch size reports Min, then Max, each exactly when it is broken. */
  lemma BatchSizeRulesIff(v: int)
    ensures RuleErrors(v, BatchSizeRules) ==
      (if v < 1 then [Broken(AtLeast(1))] else []) + (if v > 100 then [Broken(AtMost(100))] else [])
    ensures RuleErrors(v, BatchSizeRules) == [] <==> ValidBatchSize(v)
  {
    assert BatchSizeRules[1..] == [AtMost(100)];
    assert BatchSizeRules[1..][1..] == [];
  }

  /** The sampler choice check accepts exactly the eight declared codes. */
  lemma SamplerChoiceIff(code: string)
    ensures IsSampler(code) <==> ValidSampler(code)
  {
    assert SamplerChoices[0].0 == "euler" && SamplerChoices[1].0 == "heun";
    assert SamplerChoices[2].0 == "lms" && SamplerChoices[3].0 == "plms";
    assert SamplerChoices[4].0 == "ddim" && SamplerChoices[5].0 == "dpm2";
    assert SamplerChoices[6].0 == "euler_a" && SamplerChoices[7].0 == "dpm2_a";
  }

  /** Every declared choice code fits the sampler field's length limit. */
  lemma SamplerCodesFit()
    ensures forall i | 0 <= i < |SamplerChoices| :: |SamplerChoices[i].0| <= SamplerMaxLength
  {
    assert |SamplerChoices[6].0| == 7 && |SamplerChoices[7].0| == 6;
  }

  /** A field reports errors exactly when its closed-form constraint fails; an empty name or text reports only `Blank`. */
  lemma FieldErrorsIff(p: Prompt, f: Field)
    ensures ((f == Name && p.name == "") || (f == Text && p.text == "")) ==> FieldErrors(p, f) == [Blank]
    ensures FieldErrors(p, f) == [] <==>
      match f
      case Name => 0 < |p.name| <= 100
      case Text => 0 < |p.text| <= 1000
      case Width => ValidDimension(p.width)
      case Height => ValidDimension(p.height)
      case Steps => ValidSteps(p.steps)
      case Seed => |p.seed| <= 16
      case Sampler => ValidSampler(p.sampler)
      case BatchSize => ValidBatchSize(p.batchSize)
  {
    match f
    case Width => DimensionRules(p.width);
    case Height => DimensionRules(p.height);
    case Steps => StepsRulesIff(p.steps);
    case BatchSize => BatchSizeRulesIff(p.batchSize);
    case Sampler =>
      SamplerChoiceIff(p.sampler);
      SamplerCodesFit();
    case _ =>
  }

  /** The error dictionary is empty exactly when no field reports an error. */
  lemma ValidateEmpty(p: Prompt)
    ensures IsValid(p) <==> forall f | f in AllFields :: FieldErrors(p, f) == []
  {
    if exists f | f in AllFields :: FieldErrors(p, f) != [] {
      var f :| f in AllFields && FieldErrors(p, f) != [];
      assert f in Validate(p);
    } else {
      assert Validate(p).Keys == {};
    }
  }

  /** A full clean reports no errors exactly when every constraint holds. */
  lemma ValidIff(p: Prompt)
    ensures IsValid(p) <==> WellFormed(p)
  {
    ValidateEmpty(p);
    FieldErrorsIff(p, Name);
    FieldErrorsIff(p, Text);
    FieldErrorsIff(p, Width);
    FieldErrorsIff(p, Height);
    FieldErrorsIff(p, Steps);
    FieldErrorsIff(p, Seed);
    FieldErrorsIff(p, Sampler);
    FieldErrorsIff(p, BatchSize);
  }

  /** The step is 64, not 8: 520 is divisible by 8 yet rejected, with the step rule as its only error. */
  lemma DimensionStepIs64()
    ensures 520 % 8 == 0 && !ValidDimension(520) && ValidDimension(576)
    ensures RuleErrors(520, SizeRules) == [Broken(MultipleOf(64))]
  {
    DimensionRules(520);
  }

  /** A prompt with every declared default, carrying the given free-text fields. */
  function WithDefaults(name: string, text: string, seed: string): Prompt {
    Prompt(name, text, DefaultSize, DefaultSize, DefaultSteps, seed, DefaultSampler, DefaultBatchSize)
  }

  /** The defaults never break an integer or choice constraint: only the supplied texts can be blank or too long. */
  lemma DefaultsValid(name: string, text: string, seed: string)
    ensures var p := WithDefaults(name, text, seed);
      p.width == 512 && p.height == 512 && p.steps == 50 && p.sampler == "euler" && p.batchSize == 1
    ensures IsValid(WithDefaults(name, text, seed)) <==> 0 < |name| <= 100 && 0 < |text| <= 1000 && |seed| <= 16
  {
    assert ValidDimension(512) && ValidSteps(50) && ValidBatchSize(1);
    assert ValidSampler("euler");
    ValidIff(WithDefaults(name, text, seed));
  }

  /** Whatever texts it carries, a prompt with the defaults can only report errors on name, text or seed. */
  lemma DefaultsErrorFields(name: string, text: string, seed: string)
    ensures Validate(WithDefaults(name, text, seed)).Keys <= {Name, Text, Seed}
  {
    var p := WithDefaults(name, text, seed);
    assert ValidDimension(512) && ValidSteps(50) && ValidBatchSize(1);
    assert ValidSampler("euler");
    forall f | f in Validate(p) ensures f in {Name, Text, Seed} {
      FieldErrorsIff(p, f);
    }
  }

  /**
   * The seed as declared does not allow blanks, so a full clean rejects the
   * empty seed that its help text asks for to get a random seed; the seed
   * that may be left blank accepts it. That is the only difference.
   */
  lemma DeclaredSeedRejectsBlank(p: Prompt)
    requires p.seed == ""
    ensures Seed in DeclaredValidate(p) && DeclaredValidate(p)[Seed] == [Blank]
    ensures FieldErrors(p, Seed) == [] && Seed !in Validate(p)
    ensures DeclaredValidate(p) == Validate(p)[Seed := [Blank]]
  {
    BlankSeedErrors(p);
    AgreeAwayFromSeed(p);
    var d, v := DeclaredValidate(p), Validate(p)[Seed := [Blank]];
    assert d.Keys == v.Keys;
  }

  lemma BlankSeedErrors(p: Prompt)
    requires p.seed == ""
    ensures Seed in DeclaredValidate(p) && DeclaredValidate(p)[Seed] == [Blank]
    ensures FieldErrors(p, Seed) == [] && Seed !in Validate(p)
  {
    assert Seed in AllFields && DeclaredFieldErrors(p, Seed) == [Blank];
  }

  /** The two error dictionaries agree on every field but the seed. */
  lemma AgreeAwayFromSeed(p: Prompt)
    ensures forall f | f != Seed :: f in DeclaredValidate(p) <==> f in Validate(p)
    ensures forall f | f != Seed && f in Validate(p) :: DeclaredValidate(p)[f] == Validate(p)[f]
  {
    forall f | f != Seed ensures FieldErrors(p, f) == DeclaredFieldErrors(p, f) {
    }
  }

  /** A seed that is not empty is checked the same way in both variants. */
  lemma DeclaredAgreesOnNonBlankSeed(p: Prompt)
    requires p.seed != ""
    ensures DeclaredValidate(p) == Validate(p)
  {
    AgreeAwayFromSeed(p);
    assert FieldErrors(p, Seed) == DeclaredFieldErrors(p, Seed);
    assert DeclaredValidate(p).Keys == Validate(p).Keys;
  }

  /** As declared, a prompt cleans without error exactly when every constraint holds and the seed is not empty. */
  lemma DeclaredValidIff(p: Prompt)
    ensures DeclaredValidate(p) == map[] <==> WellFormed(p) && p.seed != ""
  {
    ValidIff(p);
    if p.seed == "" {
      DeclaredSeedRejectsBlank(p);
    } else {
      DeclaredAgreesOnNonBlankSeed(p);
    }
  }

  /** Once the seed may be left blank, a prompt is valid exactly when it is valid with a blank seed and its own seed fits. */
  lemma BlankSeedAccepted(p: Prompt)
    ensures IsValid(p) <==> IsValid(p.(seed := "")) && |p.seed| <= 16
  {
    ValidIff(p);
    ValidIff(p.(seed := ""));
  }

  /** The `size` property: "<width>x<height>". */
  function Size(p: Prompt): (r: string)
    ensures ParseSize(r) == Some((p.width, p.height))
  {
    SizeRoundTrip(p.width, p.height);
    Decimal.Render(p.width) + "x" + Decimal.Render(p.height)
  }

  /** The first position of 'x' in `s`. */
  function FindX(s: string): (r: Option<nat>)
    ensures r.Some? ==> r.value < |s| && s[r.value] == 'x' && 'x' !in s[..r.value]
    ensures r.None? ==> 'x' !in s
  {
    if s == [] then None
    else if s[0] == 'x' then Some(0)
    else match FindX(s[1..])
      case None => None
      case Some(k) => assert s[1..][..k] == s[1..k + 1]; Some(k + 1)
  }

  /** Reads a width and height back out of a `size` string. */
  function ParseSize(s: string): Option<(int, int)> {
    match FindX(s)
    case None => None
    case Some(k) =>
      match (Decimal.Parse(s[..k]), Decimal.Parse(s[k + 1..]))
      case (Some(w), Some(h)) => Some((w, h))
      case _ => None
  }

  lemma {:induction false} FindXAfter(a: string, b: string)
    requires 'x' !in a
    ensures FindX(a + "x" + b) == Some(|a|)
  {
    if a != [] {
      assert (a + "x" + b)[1..] == a[1..] + "x" + b;
      FindXAfter(a[1..], b);
    }
  }

  /** The decimal width, an 'x' and the decimal height parse back to the width and height. */
  lemma SizeRoundTrip(width: int, height: int)
    ensures ParseSize(Decimal.Render(width) + "x" + Decimal.Render(height)) == Some((width, height))
  {
    var w, h := Decimal.Render(width), Decimal.Render(height);
    var s := w + "x" + h;
    FindXAfter(w, h);
    assert s[..|w|] == w;
    assert s[|w| + 1..] == h;
    Decimal.RenderRoundTrip(width);
    Decimal.RenderRoundTrip(height);
  }

  /** Two prompts have the same `size` exactly when their widths and heights agree. */
  lemma SizeInjective(p: Prompt, q: Prompt)
    ensures Size(p) == Size(q) <==> p.width == q.width && p.height == q.height
  {
  }

  /** A queued task: the prompt it generates for and the name of its queue state. */
  datatype Task = Task(prompt: nat, state: string)

  const WaitingState: string := "waiting"

  /** A task as the ORM creates it, with the default status. */
  function NewTask(prompt: nat): (t: Task)
    ensures t.prompt == prompt && t.state == "waiting"
  {
    Task(prompt, WaitingState)
  }
}

=== FILE: router.dfy ===
/**
 * The URL registry: calling a router with a route gives a decorator that,
 * applied to a view, appends one URL pattern for it and returns the view.
 */
module Routing {
  import opened Wrappers

  /** A view as the decorator receives it: a plain function, or a class-based view, which has `as_view`. */
  datatype View = FunctionView(id: string) | ClassView(id: string)

  predicate HasAsView(v: View) {
    v.ClassView?
  }

  /** What a URL pattern dispatches to: the view itself, or the callable `as_view()` builds from it. */
  datatype Handler = Direct(view: View) | AsView(cls: View)

  /** The view a handler was made from. */
  function Origin(h: Handler): View {
    match h
    case Direct(v) => v
    case AsView(v) => v
  }

  /** The handler stored for `v`: `v.as_view()` when `v` has `as_view`, else `v` itself. */
  function Resolve(v: View): (h: Handler)
    ensures h.AsView? <==> HasAsView(v)
    ensures Origin(h) == v
  {
    if HasAsView(v) then AsView(v) else Direct(v)
  }

  /** The entry `path(route, view, kwargs, name)` builds. */
  datatype UrlPattern = UrlPattern(
    route: string,
    handler: Handler,
    kwargs: Option<map<string, string>>,
    name: Option<string>)

  class Router {
    /** The registered URL patterns, in registration order. */
    var links: seq<UrlPattern>

    constructor ()
      ensures links == []
    {
      links := [];
    }

    /** Captures the pattern arguments in a decorator; registers nothing by itself. */
    method Call(route: string, kwargs: Option<map<string, string>>, name: Option<string>) returns (bind: Binder)
      ensures bind.router == this
      ensures bind.route == route && bind.kwargs == kwargs && bind.name == name
    {
      bind := Binder(this, route, kwargs, name);
    }

    /** The registered patterns, in registration order. */
    method Collect() returns (patterns: seq<UrlPattern>)
      ensures patterns == links
    {
      patterns := links;
    }
  }

  /** The decorator a router call returns: the router and the pattern arguments it closes over. */
  datatype Binder = Binder(
    router: Router,
    route: string,
    kwargs: Option<map<string, string>>,
    name: Option<string>)
  {
    /** Appends one pattern for `view` to the router and hands `view` back untouched. */
    method Bind(view: View) returns (result: View)
      modifies router
      ensures result == view
      ensures router.links == old(router.links) + [UrlPattern(route, Resolve(view), kwargs, name)]
    {
      router.links := router.links + [UrlPattern(route, Resolve(view), kwargs, name)];
      result := view;
    }
  }

  /** One decorated view of a views module: the router call's arguments and the view. */
  datatype Decoration = Decoration(
    route: string,
    kwargs: Option<map<string, string>>,
    name: Option<string>,
    view: View)

  /**
   * A views module's registrations: a fresh router, each view decorated in
   * turn, then the patterns collected. Every decoration yields exactly its
   * own pattern, in declaration order, and every view is left as it was.
   */
  method Urlconf(decorations: seq<Decoration>) returns (patterns: seq<UrlPattern>, views: seq<View>)
    ensures |patterns| == |decorations| && |views| == |decorations|
    ensures forall i | 0 <= i < |decorations| ::
      patterns[i].route == decorations[i].route && patterns[i].kwargs == decorations[i].kwargs
      && patterns[i].name == decorations[i].name && Origin(patterns[i].handler) == decorations[i].view
      && (patterns[i].handler.AsView? <==> HasAsView(decorations[i].view))
    ensures forall i | 0 <= i < |decorations| :: views[i] == decorations[i].view
  {
    var router := new Router();
    views := [];
    for i := 0 to |decorations|
      invariant |router.links| == i && |views| == i
      invariant forall k | 0 <= k < i ::
        router.links[k] == UrlPattern(decorations[k].route, Resolve(decorations[k].view), decorations[k].kwargs, decorations[k].name)
      invariant forall k | 0 <= k < i :: views[k] == decorations[k].view
    {
      var d := decorations[i];
      var bind := router.Call(d.route, d.kwargs, d.name);
      var view := bind.Bind(d.view);
      views := views + [view];
    }
    patterns := router.Collect();
  }
}

=== FILE: wrappers.dfy ===
/** The optional value shared by the modules of this model. */
module Wrappers {
  datatype Option<+T> = None | Some(value: T)
}
